=== FILE: README.md ===
# Otter transcript import — a Dafny model

This project models the deterministic core of a Roam Research plugin that imports Otter.ai
recordings into the notes graph. The core has two parts. The first is `importSpeech` in
`src/components/ImportOtterDialog.tsx`. It turns the transcript lines of one recording into
one block of text, with a bold speaker label at every change of speaker. It wraps that text
in a fixed outline and records the recording's id in the "ids" registry. The same file holds
the selection dialog, whose paging rules are modelled as a small state machine. The second
part is the automatic sweep in `src/index.ts`. It keeps the fetched recordings that are not
yet in the registry and are at least a day old, and imports them in fetch order at
consecutive positions.

Every host call (`generateUID`, `dateToPageTitle`, the local start time, `createBlock`,
`getChildrenLengthByPageUid`, `getOrderByBlockUid`) and every HTTP answer is a parameter.
`Date.now()` is the parameter `nowMs`.

Modules:

- `Wrappers`: `Option` and `Result`.
- `Text`: the JavaScript string built-ins used (`join`, number to string, `padStart`), each
  with its inverse where one is needed.
- `Timestamp`: `offsetToTimestamp`. Neither source file calls it, and the line template that would use it is never applied, so no timestamp reaches the outline.
- `Transcript`: `buildTranscript`, plus an independent grouping of the lines into speaker runs.
- `Outline`: the outline tree and a reader that recovers every value from it.
- `Import`: `importSpeech` after its fetch, and the registry update.
- `AutoImport`: `filterOutToday` and the selection and ordering done by `autoImportRecordings`.
- `Dialog`: the dialog's state, events and button rules.

Three facts about the code shape the model:

- The label written before a new speaker's turn is `**speaker**:\n`.
- The sweep filters by registry membership and by age only.
- The code has no folder routing and no outline variants.

## Model

| member | source | states |
|---|---|---|
| Text.JoinSnoc | src/components/ImportOtterDialog.tsx:160 | appending one more part to a non-empty list appends the separator and that part to the join |
| Text.JoinEndsWithLast | src/components/ImportOtterDialog.tsx:160 | the last part is a suffix of the join |
| Text.NatToString | src/components/ImportOtterDialog.tsx:59 | `${n}` is a non-empty digit string without a leading zero that reads back as `n`; it has one digit iff `n < 10` |
| Text.PadStart | src/components/ImportOtterDialog.tsx:59 | `padStart(2, "0")` yields at least two characters: fill characters followed by the original string |
| Text.ParseLeadingZeros | src/components/ImportOtterDialog.tsx:59 | zero padding does not change the value a digit string denotes |
| Timestamp.RoundedSeconds | src/components/ImportOtterDialog.tsx:56 | the result is `Math.round(offset / 16000)`: the integer `r` with `16000r - 8000 <= offset < 16000r + 8000` |
| Timestamp.MinutesAndSeconds | src/components/ImportOtterDialog.tsx:57-58 | `minutes * 60 + seconds == total`, with `seconds < 60` |
| Timestamp.Render | src/components/ImportOtterDialog.tsx:59 | the text is the minutes, a colon, then the seconds padded to two digits, and it has the timestamp shape |
| Timestamp.OffsetToTimestamp | src/components/ImportOtterDialog.tsx:52-60 | every result has the shape digits, `:`, two digits |
| Timestamp.RenderRoundTrip | src/components/ImportOtterDialog.tsx:59 | a rendered `M:SS` parses back to exactly the minutes and seconds it was built from |
| Timestamp.TimestampRoundTrip | src/components/ImportOtterDialog.tsx:52-59 | every timestamp parses as minutes and seconds, with seconds `< 60`; `minutes * 60 + seconds` is the offset rounded to whole seconds, and an absent or zero offset gives 0 |
| Timestamp.ZeroOffsetSpellings | src/components/ImportOtterDialog.tsx:53-59 | an absent or zero offset prints `00:00`, but offset 1 prints `0:00`, which is the same time |
| Transcript.BuildTranscript | src/components/ImportOtterDialog.tsx:134-161 | the loop yields one segment per line, joined by `"\n\n"`; this equals the speaker-run rendering; it is `""` for no lines; otherwise it starts with the first speaker's label and ends with the last line's text |
| Transcript.SegmentKeepsText | src/components/ImportOtterDialog.tsx:145-157 | the string pushed for a line ends with the line's text; something precedes the text iff the line is the first or its speaker differs from the previous line's, and then it is exactly the speaker's label |
| Transcript.Formatted | src/components/ImportOtterDialog.tsx:141-160 | the transcript is `""` for no lines; otherwise it starts with `**<speaker0>**:\n` and ends with the last line's text |
| Transcript.JoinedSegmentsEnds | src/components/ImportOtterDialog.tsx:145-160 | the joined per-line strings are empty for no lines, and otherwise open with the first label and close with the last text |
| Transcript.Runs | src/components/ImportOtterDialog.tsx:141-157 | grouping lines into runs loses nothing: ungrouping gives back the (speaker, text) pairs in order; no run is empty; neighbouring runs have different speakers; there is one run more than there are speaker changes |
| Transcript.TranscriptGroupsBySpeaker | src/components/ImportOtterDialog.tsx:141-160 | the per-line output equals rendering each speaker run once: its label, then its texts joined by blank lines |
| Transcript.LabelCountIsOneMoreThanChanges | src/components/ImportOtterDialog.tsx:145-155 | a non-empty transcript has 1 + (adjacent speaker changes) labels, which is one per speaker run |
| Transcript.OneSpeakerOneLabel | src/components/ImportOtterDialog.tsx:145-155 | with a constant speaker there is exactly one label, placed before all of the text |
| Transcript.ReturningSpeakerIsLabelledAgain | src/components/ImportOtterDialog.tsx:149-155 | speakers A, B, A yield three labels and three runs: labels are not merged across turns that are not adjacent |
| Transcript.FormatsTwoSpeakers | src/components/ImportOtterDialog.tsx:134-161 | A "hi", A "there", B "hello" format to `**A**:\nhi\n\nthere\n\n**B**:\nhello` |
| Outline.PageLinkTitle | src/components/ImportOtterDialog.tsx:119 | a recognised `[[...]]` reference is the page link of the title it returns |
| Outline.PageLinkRoundTrip | src/components/ImportOtterDialog.tsx:119 | the title is recovered from its `[[title]]` link |
| Outline.Metadata | src/components/ImportOtterDialog.tsx:188-211 | the metadata section has exactly four children |
| Outline.RecordingNode | src/components/ImportOtterDialog.tsx:182-219 | the root has uid `newBlockUid` and the date link as text; it has one child, which has two children; the first is the metadata section; the second holds one leaf with the transcript text |
| Outline.RecordingNodeRoundTrip | src/components/ImportOtterDialog.tsx:182-219 | reading the outline back checks every fixed text and the shape, and returns exactly the uid, date, start time, link and transcript it was built from |
| Import.SettingOr | src/components/ImportOtterDialog.tsx:248-253 | `setting || default`: a missing or empty setting gives the default, any other value is kept |
| Import.Register | src/components/ImportOtterDialog.tsx:230 | `{ ...ids, [id]: uid }` has the old keys plus `id`; `id` maps to `uid`; every other key keeps its value |
| Import.RegisterIdempotent | src/components/ImportOtterDialog.tsx:230 | registering the same entry twice equals registering it once |
| Import.OutlineFor | src/components/ImportOtterDialog.tsx:165-219 | the outline for a fetched recording reads back as its uid, date, start time, link and formatted transcript |
| Import.ImportSpeech | src/components/ImportOtterDialog.tsx:220-237 | a failed fetch changes nothing; with a callback, a block is written only if `createBlock` succeeds; the registry gets exactly `id ↦ newBlockUid` iff the store is reached and `settings.set` succeeds; with a callback the import resolves iff the registry was updated, and the callback gets `id` only after the write and the store; a write failure leaves the registry alone; a store failure after the write rejects with the block already written; without a callback the store is not awaited and `[node]` is returned whatever it does; the result is `[]` with a callback |
| Import.RegistryNamesTheOutline | src/components/ImportOtterDialog.tsx:182-236 | after a successful import, the registry maps the id to the root uid of the outline that was written or returned, and that outline holds the formatted transcript |
| AutoImport.FilterOutToday | src/index.ts:69-82 | a missing `createdDate` never passes; a numeric one passes iff at least `createdDate + 86400` whole seconds have elapsed by `Date.now()`; a `null` one passes iff `Date.now()` is at least 86400 seconds after the epoch |
| AutoImport.NullDateIsEpoch | src/index.ts:75 | `null + 86400` is `86400`, so a `null` `createdDate` is filtered exactly as the timestamp 0 |
| AutoImport.FilterOutTodayIsSecondsComparison | src/index.ts:69-82 | the integer test on milliseconds agrees exactly with the source's comparison `Date.now()/1000 >= t + 86400` |
| AutoImport.FilterOutTodayMonotone | src/index.ts:75 | once a timestamp passes the test, it passes at every later time |
| AutoImport.SubsequenceTransitive | src/index.ts:110-112 | a subsequence of a subsequence is a subsequence, so chaining two filters keeps fetch order |
| AutoImport.Filter | src/index.ts:110-112 | `filter` keeps an order-preserving subsequence holding exactly the accepted elements |
| AutoImport.FilterKeepsOccurrences | src/index.ts:110-112 | `filter` keeps every accepted occurrence: each accepted value occurs in the result as often as in the input, each rejected value not at all |
| AutoImport.Select | src/index.ts:105-112 | the selected recordings are a subsequence of the fetched list, and a recording is selected iff its id is not a registry key and it is at least a day old |
| AutoImport.SelectKeepsEveryEligibleOccurrence | src/index.ts:105-112 | every eligible entry of the fetched list is selected as often as it occurs, so the number selected is the number of eligible entries |
| AutoImport.ReadSweepSettings | src/index.ts:89-95 | a missing email reads as `""`; a missing or empty label or template falls back to the default format, any other stored value is used |
| AutoImport.Requests | src/index.ts:108-124 | the i-th request imports the i-th selected recording at order `bottom + i`; every request carries the sweep's credentials, label, template, callback and parent |
| AutoImport.SweepImportsEligibleInOrder | src/index.ts:105-124 | the requested ids are a subsequence of the fetched ids; none is already registered; every eligible recording is requested; orders are consecutive and distinct |
| AutoImport.RegisterAll | src/index.ts:114-124 | registering each import of a sweep in turn gives a registry whose keys are the old keys plus every requested id |
| AutoImport.SecondSweepImportsNothing | src/index.ts:105-112 | after the first sweep's ids are registered, a second sweep over the same list at the same time selects nothing |
| AutoImport.SubsequenceLength | src/index.ts:110-112 | a filtered list is never longer than the list it came from |
| AutoImport.SweepValue | src/index.ts:109-126 | as written, `Promise.all(...).then(r => r.flat())` resolves iff every import resolves, and otherwise fails with an import's failure, all imports before it having resolved |
| AutoImport.SweepCount | src/index.ts:142-145 | corrected: the sweep resolves to the number of imports iff every import resolves, and otherwise fails as the as-written value does |
| AutoImport.SweepReturnsOutlines | src/index.ts:109-126 | without a callback (the SmartBlocks `OTTER` command and `importOtter`, lines 151-164), a sweep whose fetches all succeed resolves to one outline per selected recording, in selection order, each reading back as its recording |
| AutoImport.SweepValueOfEmptyResults | src/index.ts:126 | flattening results that are all `[]` gives `[]` |
| AutoImport.SweepCountOfSuccesses | src/index.ts:142-145 | when every import succeeds, the corrected report is the number of imports |
| AutoImport.SweepValueIgnoresImports | src/index.ts:109-126 | as written, a sweep with a callback whose imports all succeed resolves to `[]`, however many recordings it imported |
| AutoImport.TwoImportsReportedAsEmpty | src/index.ts:126 | two day-old, unregistered recordings are both imported, yet the as-written value is `[]` |
| AutoImport.SweepCountsImports | src/index.ts:142-145 | corrected: when every import succeeds, the sweep reports the number of selected recordings, and each import stored a registry containing its id |
| Dialog.Initial | src/components/ImportOtterDialog.tsx:256-264 | the dialog opens on page 0 with an empty list, not at the end, with a load pending |
| Dialog.SliceIndex | src/components/ImportOtterDialog.tsx:328 | a `slice` index in `0..length` is kept, one above it becomes `length`, and a negative one counts from the end, stopping at 0 |
| Dialog.Slice | src/components/ImportOtterDialog.tsx:328 | `slice` returns the elements between the normalised indices, or none if they cross; for in-range indices it is the subsequence `s[start..end]` |
| Dialog.Visible | src/components/ImportOtterDialog.tsx:328 | at most 10 recordings show; for a valid page they are `speeches[page..]`, with exactly `min(10, length - page)` items, or none past the end |
| Dialog.PreviousDisabled | src/components/ImportOtterDialog.tsx:353 | in a valid state Previous is disabled iff there is no earlier page |
| Dialog.NextDisabled | src/components/ImportOtterDialog.tsx:358 | Next is disabled iff the list has ended and the next page would show nothing |
| Dialog.NextLoads | src/components/ImportOtterDialog.tsx:361 | Next asks for more iff the list has not ended and the next page would show nothing yet |
| Dialog.ImportDisabled | src/components/ImportOtterDialog.tsx:373 | Import is disabled iff an import is running or no recording is chosen |
| Dialog.StartLoad | src/components/ImportOtterDialog.tsx:265-281 | a request is sent iff `initialLoading` holds; it carries the stored cursor and clears the error |
| Dialog.Step | src/components/ImportOtterDialog.tsx:282-364 | the list only grows at its end; choosing sets only the chosen id; Previous moves back 10 unless the page is 0 and changes nothing else; Next moves on 10 unless it is disabled, starts a load iff `!isEnd && page+10 >= length`, and changes nothing else; a response is appended with its cursor and end flag only while `!isEnd`, otherwise it is dropped; a failure records the message; every response ends the pending load |
| Dialog.StepPreservesValid | src/components/ImportOtterDialog.tsx:351-365 | every event keeps the page a non-negative multiple of 10 |
| Dialog.RunKeepsValid | src/components/ImportOtterDialog.tsx:351-365 | after any sequence of events, the page is a non-negative multiple of 10 and earlier recordings are still a prefix of the list |
| Dialog.NextShowsOrLoads | src/components/ImportOtterDialog.tsx:356-364 | an enabled Next lands on a page inside the loaded list, or leaves a load pending |
| Dialog.PreviousUndoesNext | src/components/ImportOtterDialog.tsx:351-364 | Previous after an enabled Next returns to the same page |
| Dialog.ClickImport | src/components/ImportOtterDialog.tsx:372-388 | Import issues a request iff neither `loading` nor an empty choice disables it; the request is for the chosen id, carries a callback, and targets the dialog block's parent and order; the click sets `loading` |
| Dialog.ImportClickedOnce | src/components/ImportOtterDialog.tsx:373-377 | a second click on Import issues nothing |

## Left out

- HTTP calls (`apiPost` for GET_SPEECH and GET_SPEECHES): they are network I/O. Their outcomes are parameters (`fetched`, `Loaded`/`LoadFailed` events).
- React rendering, hooks and Blueprint widgets: only the state and the button rules are kept. Stale closures are not modelled, so a response is applied to the current state.
- Host reads and writes (`createBlock`, `deleteBlock`, `generateUID`, `dateToPageTitle`, `getOrderByBlockUid`, `getParentUidByBlockUid`, `getChildrenLengthByPageUid`): these are foreign calls, taken as parameters. The dialog's `deleteBlock` on close is not modelled.
- The local start time (`extractTimeFromDate`) and the daily page title: they depend on the time zone, so both are opaque strings.
- Label and `{today}`/`{tomorrow}` substitution (`labelWithReplacements`, `replaceDateSubstitutions`): they are regex- and locale-based, and their result never reaches the outline. The label and template are only carried in requests.
- Import.ImportSpeech: throws between the fetch and `createBlock` are not modelled as a separate case. They are the `Object.values(data.transcripts)` call when `transcripts` is missing (src/components/ImportOtterDialog.tsx:165) and the date-fns `format` call on an invalid date or an unknown pattern letter in a `{created-date:...}` label (lines 125-128 of the same file). Each rejects the import before anything is written or stored, which is exactly the effect of `fetched = Err`, so the model folds them into that case. It therefore does not say which label formats cause such a rejection.
- Concurrency of `Promise.all`: the interleaving of imports and the race on the "ids" read-modify-write are not modelled. Each import gets its own snapshot of the stored registry. `RegisterAll` applies the updates in order.
- `settings.set("ids", ...)` is a host write whose outcome is the parameter `persisted`. Without a callback its rejection is unhandled and does not reach the import's value, which the model records as "no registry update, `[node]` returned".
- AutoImport.SweepValue: when several imports fail, `Promise.all` rejects with whichever fails first in time; the model picks the first in list order.
- Timestamp.OffsetToTimestamp: offsets are non-negative integers; fractional, negative and NaN offsets are not modelled.
- AutoImport.FilterOutToday: timestamps are integers; a fractional `createdDate` is not modelled.
- The settings panel, toasts, SmartBlocks registration, `window.roamjs` and `console.log`: these are UI and host wiring.

## Findings

| source | as written | input that shows it | evidently intended | confidence | as-written member | corrected member |
|---|---|---|---|---|---|---|
| src/index.ts:126 | `autoImportRecordings` resolves to `r.flat()`, the concatenation of the values the imports resolved to. With a callback every import resolves to `[]`. The caller at lines 142-145 shows this value as "Successfully imported ${count} latest otter recordings", which prints an empty string | two unregistered recordings with `createdDate` 0, swept at `Date.now()` = 86400000 with the toast callback: both are imported, and the value is `[]` | the sweep reports how many recordings it imported | medium, not executed | AutoImport.SweepValueIgnoresImports | AutoImport.SweepCountsImports |

=== FILE: autoimport.dfy ===
/** The automatic import sweep in src/index.ts: `filterOutToday` and the selection and
    ordering done by `autoImportRecordings` once the recording list has been fetched. */
module AutoImport {

  import opened Wrappers
  import opened Outline
  import opened Import

  /** The `createdDate` of a listed recording as JSON delivers it: missing (`undefined`),
      `null`, or a number of seconds since the epoch. */
  datatype CreatedDate = Missing | Null | Seconds(t: int)

  /** One entry of a GET_SPEECHES response. The declared type has `created_at`; the sweep
      reads `createdDate`, a field the declared type lacks, so it may be absent. */
  datatype Summary = Summary(
    id: string,
    title: string,
    summary: string,
    createdAt: int,
    createdDate: CreatedDate)

  /** `filterOutToday`: `Date.now() / 1000 >= timestamp + 86400`, with `nowMs` the value
      of `Date.now()`. A missing timestamp makes the sum NaN and the comparison false;
      `null + 86400` is `86400`, so `null` behaves as the epoch. */
  predicate FilterOutToday(timestamp: CreatedDate, nowMs: int): (r: bool)
    // a missing timestamp never passes; a number passes once a full day of seconds has
    // elapsed since it, counting whole seconds only; null passes a day after the epoch
    ensures timestamp.Missing? ==> !r
    ensures timestamp.Seconds? ==> (r <==> nowMs / 1000 >= timestamp.t + 86400)
    ensures timestamp.Null? ==> (r <==> nowMs / 1000 >= 86400)
  {
    match timestamp
    case Missing => false
    case Null => nowMs >= 86400 * 1000
    case Seconds(t) => nowMs >= (t + 86400) * 1000
  }

  /** The integer test is the source's floating-point comparison of seconds, exactly. */
  lemma FilterOutTodayIsSecondsComparison(t: int, nowMs: int)
    ensures FilterOutToday(Seconds(t), nowMs) <==> (nowMs as real) / 1000.0 >= (t + 86400) as real
  {
  }

  /** A `null` timestamp is filtered exactly as the timestamp 0. */
  lemma NullDateIsEpoch(nowMs: int)
    ensures FilterOutToday(Null, nowMs) <==> FilterOutToday(Seconds(0), nowMs)
  {
  }

  /** Once a recording is old enough it stays old enough. */
  lemma FilterOutTodayMonotone(timestamp: CreatedDate, nowMs: int, laterMs: int)
    requires nowMs <= laterMs && FilterOutToday(timestamp, nowMs)
    ensures FilterOutToday(timestamp, laterMs)
  {
  }

  /** `a` is `b` with some elements left out, the rest in their original order. */
  predicate IsSubsequence<T(==)>(a: seq<T>, b: seq<T>)
    decreases |b|
  {
    if |a| == 0 then true
    else if |b| == 0 then false
    else (a[0] == b[0] && IsSubsequence(a[1..], b[1..])) || IsSubsequence(a, b[1..])
  }

  lemma {:induction false} SubsequenceTransitive<T>(a: seq<T>, b: seq<T>, c: seq<T>)
    requires IsSubsequence(a, b) && IsSubsequence(b, c)
    ensures IsSubsequence(a, c)
    decreases |c|
  {
    if |a| > 0 {
      assert |b| > 0 && |c| > 0;
      if b[0] == c[0] && IsSubsequence(b[1..], c[1..]) {
        if a[0] == b[0] && IsSubsequence(a[1..], b[1..]) {
          SubsequenceTransitive(a[1..], b[1..], c[1..]);
        } else {
          SubsequenceTransitive(a, b[1..], c[1..]);
        }
      } else {
        SubsequenceTransitive(a, b, c[1..]);
      }
    }
  }

  /** `Array.prototype.filter`: the elements `keep` accepts, in their original order. */
  function Filter<T(!new)>(s: seq<T>, keep: T -> bool): (r: seq<T>)
    ensures IsSubsequence(r, s)
    ensures forall x :: x in r <==> x in s && keep(x)
  {
    if |s| == 0 then []
    else
      var rest := Filter(s[1..], keep);
      if keep(s[0]) then
        var r := [s[0]] + rest;
        assert r[1..] == rest;
        r
      else rest
  }

  /** `filter` keeps every accepted occurrence: an accepted value occurs in the result as
      often as in the input, a rejected one not at all. */
  lemma {:induction false} FilterKeepsOccurrences<T(!new)>(s: seq<T>, keep: T -> bool)
    ensures forall x :: multiset(Filter(s, keep))[x] == if keep(x) then multiset(s)[x] else 0
    decreases |s|
  {
    if |s| > 0 {
      FilterKeepsOccurrences(s[1..], keep);
      assert s == [s[0]] + s[1..];
      if keep(s[0]) {
        assert Filter(s, keep) == [s[0]] + Filter(s[1..], keep);
      }
    }
  }

  /** The recordings a sweep imports: not yet in the registry, and at least a day old. */
  predicate Eligible(s: Summary, ids: map<string, string>, nowMs: int) {
    s.id !in ids && FilterOutToday(s.createdDate, nowMs)
  }

  /** The two filters of the sweep, in the source's order. */
  function Select(speeches: seq<Summary>, ids: map<string, string>, nowMs: int): (r: seq<Summary>)
    ensures IsSubsequence(r, speeches)
    ensures forall s :: s in r <==> s in speeches && Eligible(s, ids, nowMs)
  {
    var notImported := Filter(speeches, (s: Summary) => s.id !in ids);
    var r := Filter(notImported, (s: Summary) => FilterOutToday(s.createdDate, nowMs));
    SubsequenceTransitive(r, notImported, speeches);
    r
  }

  /** Selection drops no eligible occurrence: a recording listed twice and eligible is
      selected twice, so `|Select(...)|` is the number of eligible entries. */
  lemma SelectKeepsEveryEligibleOccurrence(speeches: seq<Summary>, ids: map<string, string>, nowMs: int)
    ensures forall s :: multiset(Select(speeches, ids, nowMs))[s]
                     == if Eligible(s, ids, nowMs) then multiset(speeches)[s] else 0
  {
    var notImported := Filter(speeches, (s: Summary) => s.id !in ids);
    var r := Filter(notImported, (s: Summary) => FilterOutToday(s.createdDate, nowMs));
    FilterKeepsOccurrences(speeches, (s: Summary) => s.id !in ids);
    FilterKeepsOccurrences(notImported, (s: Summary) => FilterOutToday(s.createdDate, nowMs));
    assert r == Select(speeches, ids, nowMs);
  }

  /** The settings every import of one sweep shares. */
  datatype SweepSettings = SweepSettings(
    credentials: Credentials,
    labelFormat: string,
    template: string,
    hasOnSuccess: bool,
    parentUid: string)

  /** The settings `autoImportRecordings` reads before fetching: a missing or empty email,
      label or template falls back to `""` or to the default format. */
  function ReadSweepSettings(
    email: Option<string>, password: string, storedLabel: Option<string>, storedTemplate: Option<string>,
    hasOnSuccess: bool, parentUid: string): (r: SweepSettings)
    ensures r.credentials.password == password
    ensures email.Some? ==> r.credentials.email == email.value
    ensures email.None? ==> r.credentials.email == ""
    ensures storedLabel.Some? && storedLabel.value != "" ==> r.labelFormat == storedLabel.value
    ensures storedLabel.None? || storedLabel.value == "" ==> r.labelFormat == DefaultLabel
    ensures storedTemplate.Some? && storedTemplate.value != "" ==> r.template == storedTemplate.value
    ensures storedTemplate.None? || storedTemplate.value == "" ==> r.template == DefaultTemplate
    ensures r.hasOnSuccess == hasOnSuccess && r.parentUid == parentUid
  {
    SweepSettings(Credentials(SettingOr(email, ""), password),
                  SettingOr(storedLabel, DefaultLabel), SettingOr(storedTemplate, DefaultTemplate),
                  hasOnSuccess, parentUid)
  }

  /** The `importSpeech` calls of one sweep: the i-th selected recording goes to
      `parentUid` at order `bottom + i`, where `bottom` is the child count read once. */
  function Requests(
    speeches: seq<Summary>, ids: map<string, string>, nowMs: int, bottom: int,
    settings: SweepSettings): (r: seq<ImportRequest>)
    ensures |r| == |Select(speeches, ids, nowMs)|
    ensures forall i :: 0 <= i < |r| ==>
              && r[i].id == Select(speeches, ids, nowMs)[i].id
              && r[i].order == bottom + i
    ensures forall i :: 0 <= i < |r| ==>
              && r[i].credentials == settings.credentials
              && r[i].labelFormat == settings.labelFormat
              && r[i].template == settings.template
              && r[i].hasOnSuccess == settings.hasOnSuccess
              && r[i].parentUid == settings.parentUid
  {
    var selected := Select(speeches, ids, nowMs);
    seq(|selected|, i requires 0 <= i < |selected| =>
      ImportRequest(settings.credentials, selected[i].id, bottom + i, settings.parentUid,
                    settings.labelFormat, settings.template, settings.hasOnSuccess))
  }

  function RequestIds(reqs: seq<ImportRequest>): seq<string> {
    seq(|reqs|, i requires 0 <= i < |reqs| => reqs[i].id)
  }

  function SummaryIds(speeches: seq<Summary>): seq<string> {
    seq(|speeches|, i requires 0 <= i < |speeches| => speeches[i].id)
  }

  lemma {:induction false} SubsequenceOfIds(a: seq<Summary>, b: seq<Summary>)
    requires IsSubsequence(a, b)
    ensures IsSubsequence(SummaryIds(a), SummaryIds(b))
    decreases |b|
  {
    if |a| > 0 {
      assert SummaryIds(b)[1..] == SummaryIds(b[1..]);
      if a[0] == b[0] && IsSubsequence(a[1..], b[1..]) {
        assert SummaryIds(a)[1..] == SummaryIds(a[1..]);
        SubsequenceOfIds(a[1..], b[1..]);
      } else {
        SubsequenceOfIds(a, b[1..]);
      }
    }
  }

  /** A sweep imports exactly the eligible recordings, each under its own id, in fetch
      order, at distinct consecutive orders starting from `bottom`. */
  lemma SweepImportsEligibleInOrder(
    speeches: seq<Summary>, ids: map<string, string>, nowMs: int, bottom: int,
    settings: SweepSettings)
    ensures var r := Requests(speeches, ids, nowMs, bottom, settings);
            && IsSubsequence(RequestIds(r), SummaryIds(speeches))
            && (forall i :: 0 <= i < |r| ==> r[i].id !in ids)
            && (forall s :: s in speeches && Eligible(s, ids, nowMs) ==>
                  exists i :: 0 <= i < |r| && r[i].id == s.id)
            && (forall i, j :: 0 <= i < j < |r| ==> r[j].order - r[i].order == j - i)
  {
    var selected := Select(speeches, ids, nowMs);
    var r := Requests(speeches, ids, nowMs, bottom, settings);
    assert RequestIds(r) == SummaryIds(selected);
    SubsequenceOfIds(selected, speeches);
    forall i | 0 <= i < |r|
      ensures r[i].id !in ids
    {
      assert selected[i] in selected;
    }
    forall s | s in speeches && Eligible(s, ids, nowMs)
      ensures exists i :: 0 <= i < |r| && r[i].id == s.id
    {
      var i :| 0 <= i < |selected| && selected[i] == s;
      assert r[i].id == s.id;
    }
  }

  /** Records every requested id, in order, with the uid its import generated. */
  function RegisterAll(ids: map<string, string>, reqs: seq<ImportRequest>, uids: seq<string>): (r: map<string, string>)
    requires |uids| == |reqs|
    ensures forall k :: k in r <==> k in ids || k in RequestIds(reqs)
    decreases |reqs|
  {
    if |reqs| == 0 then ids
    else
      assert RequestIds(reqs) == [reqs[0].id] + RequestIds(reqs[1..]);
      RegisterAll(Register(ids, reqs[0].id, uids[0]), reqs[1..], uids[1..])
  }

  /** A second sweep over the same list, at the same time, after the first sweep's ids
      have been registered, imports nothing. */
  lemma SecondSweepImportsNothing(
    speeches: seq<Summary>, ids: map<string, string>, nowMs: int, bottom: int,
    settings: SweepSettings, uids: seq<string>, laterBottom: int)
    requires |uids| == |Requests(speeches, ids, nowMs, bottom, settings)|
    ensures var after := RegisterAll(ids, Requests(speeches, ids, nowMs, bottom, settings), uids);
            Requests(speeches, after, nowMs, laterBottom, settings) == []
  {
    var first := Requests(speeches, ids, nowMs, bottom, settings);
    var after := RegisterAll(ids, first, uids);
    var selected := Select(speeches, ids, nowMs);
    forall s | s in speeches && s.id !in ids && FilterOutToday(s.createdDate, nowMs)
      ensures s.id in after
    {
      assert s in selected;
      var i :| 0 <= i < |selected| && selected[i] == s;
      assert RequestIds(first)[i] == s.id;
    }
    var again := Select(speeches, after, nowMs);
    assert forall k :: 0 <= k < |again| ==> again[k] in again;
  }

  /** What the backend and the host answer for one import of a sweep. */
  datatype ImportEnv = ImportEnv(
    fetched: Result<Detail, string>,
    host: HostValues,
    stored: Option<map<string, string>>,
    created: Result<(), string>,
    persisted: Result<(), string>)

  /** Every import of a sweep fetches its recording, writes its block and stores the registry. */
  predicate AllSucceed(envs: seq<ImportEnv>) {
    forall i :: 0 <= i < |envs| ==> envs[i].fetched.Ok? && envs[i].created.Ok? && envs[i].persisted.Ok?
  }

  /** The imports a sweep launches, one per request. */
  function SweepOutcomes(reqs: seq<ImportRequest>, envs: seq<ImportEnv>): seq<ImportOutcome>
    requires |envs| == |reqs|
  {
    seq(|reqs|, i requires 0 <= i < |reqs| =>
      ImportSpeech(reqs[i], envs[i].fetched, envs[i].host, envs[i].stored, envs[i].created, envs[i].persisted))
  }

  /** As written: `Promise.all(...).then((r) => r.flat())`, the concatenation of what the
      imports resolved to, or the first failure. */
  function SweepValue(outcomes: seq<ImportOutcome>): (r: Result<seq<Node>, ImportError>)
    ensures r.Ok? <==> forall i :: 0 <= i < |outcomes| ==> outcomes[i].result.Ok?
    ensures r.Err? ==> exists i :: 0 <= i < |outcomes| && outcomes[i].result == Err(r.error)
                                 && forall j :: 0 <= j < i ==> outcomes[j].result.Ok?
  {
    if |outcomes| == 0 then Ok([])
    else
      match outcomes[0].result
      case Err(e) => Err(e)
      case Ok(nodes) =>
        match SweepValue(outcomes[1..])
        case Err(e) => Err(e)
        case Ok(rest) => Ok(nodes + rest)
  }

  /** As intended by the caller that reports it: how many recordings the sweep imported,
      or the first failure. */
  function SweepCount(outcomes: seq<ImportOutcome>): (r: Result<nat, ImportError>)
    ensures r.Ok? <==> forall i :: 0 <= i < |outcomes| ==> outcomes[i].result.Ok?
    ensures r.Ok? ==> r.value == |outcomes|
    ensures r.Err? ==> SweepValue(outcomes) == Err(r.error)
  {
    if |outcomes| == 0 then Ok(0)
    else
      match outcomes[0].result
      case Err(e) => Err(e)
      case Ok(_) =>
        match SweepCount(outcomes[1..])
        case Err(e) => Err(e)
        case Ok(n) => Ok(n + 1)
  }

  lemma {:induction false} SweepValueOfEmptyResults(outcomes: seq<ImportOutcome>)
    requires forall i :: 0 <= i < |outcomes| ==> outcomes[i].result == Ok([])
    ensures SweepValue(outcomes) == Ok([])
  {
    if |outcomes| > 0 {
      SweepValueOfEmptyResults(outcomes[1..]);
      var empty: seq<Node> := [];
      assert outcomes[0].result == Ok(empty);
      assert empty + empty == empty;
    }
  }

  lemma {:induction false} SweepCountOfSuccesses(outcomes: seq<ImportOutcome>)
    requires forall i :: 0 <= i < |outcomes| ==> outcomes[i].result.Ok?
    ensures SweepCount(outcomes) == Ok(|outcomes|)
  {
    if |outcomes| > 0 {
      SweepCountOfSuccesses(outcomes[1..]);
    }
  }

  /** As written, a sweep with a callback resolves to an empty list however many
      recordings it imported, so the value shown as the count carries no number. */
  lemma SweepValueIgnoresImports(
    speeches: seq<Summary>, ids: map<string, string>, nowMs: int, bottom: int,
    settings: SweepSettings, envs: seq<ImportEnv>)
    requires settings.hasOnSuccess && AllSucceed(envs)
    requires |envs| == |Requests(speeches, ids, nowMs, bottom, settings)|
    ensures SweepValue(SweepOutcomes(Requests(speeches, ids, nowMs, bottom, settings), envs)) == Ok([])
  {
    var outcomes := SweepOutcomes(Requests(speeches, ids, nowMs, bottom, settings), envs);
    assert forall i :: 0 <= i < |outcomes| ==> outcomes[i].result == Ok([]);
    SweepValueOfEmptyResults(outcomes);
  }

  /** Results that are each one node flatten to those nodes, in order. */
  lemma {:induction false} ValueOfSingletons(outcomes: seq<ImportOutcome>, nodes: seq<Node>)
    requires |outcomes| == |nodes|
    requires forall i :: 0 <= i < |outcomes| ==> outcomes[i].result == Ok([nodes[i]])
    ensures SweepValue(outcomes) == Ok(nodes)
    decreases |outcomes|
  {
    if |outcomes| > 0 {
      ValueOfSingletons(outcomes[1..], nodes[1..]);
      assert [nodes[0]] + nodes[1..] == nodes;
    }
  }

  /** Without a callback (the SmartBlocks command and `importOtter`), a sweep whose fetches
      all succeed resolves to one outline per selected recording, in selection order. */
  lemma SweepReturnsOutlines(
    speeches: seq<Summary>, ids: map<string, string>, nowMs: int, bottom: int,
    settings: SweepSettings, envs: seq<ImportEnv>)
    requires !settings.hasOnSuccess
    requires |envs| == |Requests(speeches, ids, nowMs, bottom, settings)|
    requires forall i :: 0 <= i < |envs| ==> envs[i].fetched.Ok?
    ensures SweepValue(SweepOutcomes(Requests(speeches, ids, nowMs, bottom, settings), envs))
         == Ok(seq(|envs|, i requires 0 <= i < |envs| => OutlineFor(envs[i].fetched.value, envs[i].host)))
  {
    var outcomes := SweepOutcomes(Requests(speeches, ids, nowMs, bottom, settings), envs);
    var nodes := seq(|envs|, i requires 0 <= i < |envs| => OutlineFor(envs[i].fetched.value, envs[i].host));
    ValueOfSingletons(outcomes, nodes);
  }

  /** A concrete sweep: two day-old recordings, nothing imported yet. Both are imported,
      yet the as-written value is the empty list. */
  lemma TwoImportsReportedAsEmpty(settings: SweepSettings, envs: seq<ImportEnv>)
    requires settings.hasOnSuccess && AllSucceed(envs) && |envs| == 2
    ensures var speeches := [Summary("a", "", "", 0, Seconds(0)), Summary("b", "", "", 0, Seconds(0))];
            && |Requests(speeches, map[], 86400000, 0, settings)| == 2
            && SweepValue(SweepOutcomes(Requests(speeches, map[], 86400000, 0, settings), envs)) == Ok([])
  {
    var speeches := [Summary("a", "", "", 0, Seconds(0)), Summary("b", "", "", 0, Seconds(0))];
    var r := Select(speeches, map[], 86400000);
    assert speeches[0] in r && speeches[1] in r;
    assert speeches[0] != speeches[1];
    assert IsSubsequence(r, speeches);
    assert |r| <= 2 by {
      SubsequenceLength(r, speeches);
    }
    SweepValueIgnoresImports(speeches, map[], 86400000, 0, settings, envs);
  }

  lemma {:induction false} SubsequenceLength<T>(a: seq<T>, b: seq<T>)
    requires IsSubsequence(a, b)
    ensures |a| <= |b|
    decreases |b|
  {
    if |a| > 0 {
      if a[0] == b[0] && IsSubsequence(a[1..], b[1..]) {
        SubsequenceLength(a[1..], b[1..]);
      } else {
        SubsequenceLength(a, b[1..]);
      }
    }
  }

  /** Corrected: when every import succeeds the sweep reports how many recordings it
      selected, and each of them has been entered in the registry it stored. */
  lemma SweepCountsImports(
    speeches: seq<Summary>, ids: map<string, string>, nowMs: int, bottom: int,
    settings: SweepSettings, envs: seq<ImportEnv>)
    requires AllSucceed(envs)
    requires |envs| == |Requests(speeches, ids, nowMs, bottom, settings)|
    ensures var reqs := Requests(speeches, ids, nowMs, bottom, settings);
            var outcomes := SweepOutcomes(reqs, envs);
            && SweepCount(outcomes) == Ok(|Select(speeches, ids, nowMs)|)
            && forall i :: 0 <= i < |outcomes| ==>
                 outcomes[i].storedIds.Some? && reqs[i].id in outcomes[i].storedIds.value
  {
    var outcomes := SweepOutcomes(Requests(speeches, ids, nowMs, bottom, settings), envs);
    SweepCountOfSuccesses(outcomes);
  }
}

=== FILE: dialog.dfy ===
/** The selection dialog of src/components/ImportOtterDialog.tsx reduced to its state:
    the loaded recordings, the page offset, the load cursor and the enablement rules of the
    Previous, Next and Import buttons. */
module Dialog {

  import opened Wrappers
  import opened Import
  import opened AutoImport

  /** How many recordings one page shows. */
  const PageSize: int := 10

  /** The dialog's React state. */
  datatype State = State(
    speeches: seq<Summary>,
    value: string,
    initialLoading: bool,
    error: string,
    loading: bool,
    page: int,
    lastLoad: int,
    lastModified: int,
    isEnd: bool)

  /** The values of the `useState` calls when the dialog opens: a first load is pending. */
  function Initial(): (st: State)
    ensures st.initialLoading && st.page == 0 && |st.speeches| == 0 && !st.isEnd
  {
    State([], "", true, "", false, 0, 0, 0, false)
  }

  /** The cursor a GET_SPEECHES response returns. */
  datatype Page = Page(speeches: seq<Summary>, lastLoad: int, lastModified: int, isEnd: bool)

  /** What a user or the backend does to the dialog. */
  datatype Event =
    | Choose(id: string)
    | Previous
    | Next
    | Loaded(response: Page)
    | LoadFailed(message: string)

  /** `Array.prototype.slice` index normalisation: negative indices count from the end,
      every index is clamped to the length. */
  function SliceIndex(i: int, len: nat): (r: nat)
    ensures r <= len
    ensures 0 <= i <= len ==> r == i
    ensures i > len ==> r == len
    ensures i < 0 ==> r == if len + i < 0 then 0 else len + i
  {
    if i < 0 then (if len + i < 0 then 0 else len + i) else if i > len then len else i
  }

  /** `s.slice(start, end)`. */
  function Slice<T>(s: seq<T>, start: int, end: int): (r: seq<T>)
    ensures 0 <= start <= end <= |s| ==> r == s[start..end]
    ensures |r| == if SliceIndex(start, |s|) < SliceIndex(end, |s|)
                   then SliceIndex(end, |s|) - SliceIndex(start, |s|) else 0
    ensures forall k :: 0 <= k < |r| ==> r[k] == s[SliceIndex(start, |s|) + k]
  {
    var from := SliceIndex(start, |s|);
    var to := SliceIndex(end, |s|);
    if from < to then s[from..to] else []
  }

  /** The recordings shown: `speeches.slice(page, page + 10)`. */
  function Visible(st: State): (r: seq<Summary>)
    ensures |r| <= PageSize
    ensures 0 <= st.page ==> |r| == if st.page >= |st.speeches| then 0
                                     else if |st.speeches| - st.page < PageSize then |st.speeches| - st.page
                                     else PageSize
    ensures 0 <= st.page ==> forall k :: 0 <= k < |r| ==> r[k] == st.speeches[st.page + k]
  {
    Slice(st.speeches, st.page, st.page + PageSize)
  }

  /** Previous is disabled on the first page, the only page of a valid state that has no
      page before it. */
  predicate PreviousDisabled(st: State): (r: bool)
    ensures Valid(st) ==> (r <==> st.page < PageSize)
  {
    st.page == 0
  }

  /** Next is disabled exactly when the list has ended and the next page would show nothing. */
  predicate NextDisabled(st: State): (r: bool)
    ensures 0 <= st.page ==> (r <==> st.isEnd && Visible(st.(page := st.page + PageSize)) == [])
  {
    st.isEnd && st.page + PageSize >= |st.speeches|
  }

  /** Import is disabled while an import runs and while no recording is chosen. */
  predicate ImportDisabled(st: State): (r: bool)
    ensures !r <==> !st.loading && |st.value| > 0
  {
    st.loading || st.value == ""
  }

  /** Whether pressing Next asks for another page from the backend: the list has not ended
      and the next page would show nothing yet. */
  predicate NextLoads(st: State): (r: bool)
    ensures 0 <= st.page ==> (r <==> !st.isEnd && Visible(st.(page := st.page + PageSize)) == [])
  {
    !st.isEnd && st.page + PageSize >= |st.speeches|
  }

  /** The load effect: while `initialLoading` holds it clears the error and asks for the
      page after the stored cursor; otherwise it does nothing. */
  function StartLoad(st: State): (r: (State, Option<(int, int)>))
    ensures r.1.Some? <==> st.initialLoading
    ensures r.1.Some? ==> r.0 == st.(error := "") && r.1.value == (st.lastLoad, st.lastModified)
    ensures r.1.None? ==> r.0 == st
  {
    if st.initialLoading then (st.(error := ""), Some((st.lastLoad, st.lastModified))) else (st, None)
  }

  /** The dialog's reaction to one event. A disabled button ignores its click. */
  function Step(st: State, e: Event): (r: State)
    // the list only ever grows at its end
    ensures st.speeches <= r.speeches
    ensures e.Choose? ==> r == st.(value := e.id)
    // Previous and Next move the page and touch nothing else but the pending load
    ensures e.Previous? ==> r == st.(page := if PreviousDisabled(st) then st.page else st.page - PageSize)
    ensures e.Next? && NextDisabled(st) ==> r == st
    ensures e.Next? && !NextDisabled(st) ==>
              r == st.(page := st.page + PageSize, initialLoading := st.initialLoading || NextLoads(st))
    // a response is appended only while the list has not ended
    ensures e.Loaded? ==> !r.initialLoading
    ensures e.Loaded? && st.isEnd ==> r == st.(initialLoading := false)
    ensures e.Loaded? && !st.isEnd ==>
              r == st.(speeches := st.speeches + e.response.speeches,
                       lastLoad := e.response.lastLoad, lastModified := e.response.lastModified,
                       isEnd := e.response.isEnd, initialLoading := false)
    ensures e.LoadFailed? ==> r == st.(error := e.message, initialLoading := false)
  {
    match e
    case Choose(id) => st.(value := id)
    case Previous =>
      if PreviousDisabled(st) then st else st.(page := st.page - PageSize)
    case Next =>
      if NextDisabled(st) then st
      else
        var moved := st.(page := st.page + PageSize);
        if NextLoads(st) then moved.(initialLoading := true) else moved
    case Loaded(resp) =>
      var done := st.(initialLoading := false);
      if !st.isEnd then
        done.(speeches := st.speeches + resp.speeches, lastLoad := resp.lastLoad,
              lastModified := resp.lastModified, isEnd := resp.isEnd)
      else done
    case LoadFailed(msg) => st.(error := msg, initialLoading := false)
  }

  /** The page offset is never negative and always a whole number of pages. */
  predicate Valid(st: State) {
    0 <= st.page && st.page % PageSize == 0
  }

  /** Replays events from a state. */
  function Run(st: State, events: seq<Event>): State
    decreases |events|
  {
    if |events| == 0 then st else Run(Step(st, events[0]), events[1..])
  }

  /** Every step keeps the page a non-negative multiple of ten. */
  lemma StepPreservesValid(st: State, e: Event)
    requires Valid(st)
    ensures Valid(Step(st, e))
  {
  }

  /** Whatever happens after the dialog opens, the page stays a non-negative multiple of
      ten, and the recordings loaded so far are never dropped or reordered. */
  lemma {:induction false} RunKeepsValid(st: State, events: seq<Event>)
    requires Valid(st)
    ensures Valid(Run(st, events))
    ensures st.speeches <= Run(st, events).speeches
    decreases |events|
  {
    if |events| > 0 {
      StepPreservesValid(st, events[0]);
      RunKeepsValid(Step(st, events[0]), events[1..]);
    }
  }

  /** Next never leaves the user on an empty page without asking for more: either the
      new page starts inside the loaded list or a load is pending. */
  lemma NextShowsOrLoads(st: State)
    requires !NextDisabled(st)
    ensures var r := Step(st, Next);
            r.page < |r.speeches| || r.initialLoading
  {
  }

  /** Previous undoes an enabled Next. */
  lemma PreviousUndoesNext(st: State)
    requires Valid(st) && !NextDisabled(st)
    ensures Step(Step(st, Next), Previous).page == st.page
  {
  }

  /** The Import button: when enabled it sets `loading` and issues an import of the chosen
      recording, with a callback, placed where the dialog's block sits. */
  function ClickImport(
    st: State, credentials: Credentials, labelFormat: string, template: string,
    parentUid: string, order: int): (r: (State, Option<ImportRequest>))
    ensures r.1.Some? <==> !ImportDisabled(st)
    ensures r.1.Some? ==>
              && r.0 == st.(loading := true)
              && r.1.value.id == st.value && r.1.value.id != ""
              && r.1.value.hasOnSuccess
              && r.1.value.parentUid == parentUid && r.1.value.order == order
    ensures r.1.None? ==> r.0 == st
  {
    if ImportDisabled(st) then (st, None)
    else (st.(loading := true),
          Some(ImportRequest(credentials, st.value, order, parentUid, labelFormat, template, true)))
  }

  /** Once an import is under way the button stays disabled: a second click issues nothing. */
  lemma ImportClickedOnce(
    st: State, credentials: Credentials, labelFormat: string, template: string,
    parentUid: string, order: int)
    ensures ClickImport(ClickImport(st, credentials, labelFormat, template, parentUid, order).0,
                        credentials, labelFormat, template, parentUid, order).1.None?
  {
  }
}

=== FILE: import.dfy ===
/** `importSpeech` in src/components/ImportOtterDialog.tsx once its HTTP call has
    settled: builds the outline, writes it (or hands it back) and records the recording's id
    in the "ids" registry. */
module Import {

  import opened Wrappers
  import opened Transcript
  import opened Outline

  /** The block label and line template used when the settings leave them empty. */
  const DefaultLabel: string := "{title} - {summary} ({created-date})"
  const DefaultTemplate: string := "{start} - {end} - {text}"

  /** A stored setting read with `||`: a missing or empty value falls back to `default`. */
  function SettingOr(stored: Option<string>, default: string): (r: string)
    ensures stored.Some? && stored.value != "" ==> r == stored.value
    ensures stored.None? || stored.value == "" ==> r == default
  {
    match stored
    case Some(v) => if v != "" then v else default
    case None => default
  }

  datatype Credentials = Credentials(email: string, password: string)

  /** The argument object of `importSpeech`; `hasOnSuccess` says whether a callback was
      passed. `labelFormat` (the `label` argument) and `template` are carried but do not reach the outline. */
  datatype ImportRequest = ImportRequest(
    credentials: Credentials,
    id: string,
    order: int,
    parentUid: string,
    labelFormat: string,
    template: string,
    hasOnSuccess: bool)

  /** The fields of a GET_SPEECH response that `importSpeech` reads. */
  datatype Detail = Detail(
    title: string,
    summary: string,
    createdDate: int,
    link: string,
    transcripts: seq<Line>)

  /** What the host answers during one import: `generateUID()`, the daily page title of the
      recording date, and its local `H:MM` start time. */
  datatype HostValues = HostValues(newBlockUid: string, datePageTitle: string, startTime: string)

  datatype ImportError = FetchFailed(message: string) | WriteFailed(message: string) | StoreFailed(message: string)

  /** One `createBlock` call that succeeded. */
  datatype BlockWrite = BlockWrite(parentUid: string, node: Node, order: int)

  /** Everything one import does: the block it wrote, the map it stored under "ids", the
      id passed to the callback, and how its promise settled. */
  datatype ImportOutcome = ImportOutcome(
    written: Option<BlockWrite>,
    storedIds: Option<map<string, string>>,
    notified: Option<string>,
    result: Result<seq<Node>, ImportError>)

  /** `settings.get("ids") || {}`. */
  function StoredRegistry(stored: Option<map<string, string>>): map<string, string> {
    stored.GetOr(map[])
  }

  /** `{ ...ids, [id]: uid }`: adds or overwrites one key and keeps every other entry. */
  function Register(ids: map<string, string>, id: string, uid: string): (r: map<string, string>)
    ensures r.Keys == ids.Keys + {id}
    ensures id in r && r[id] == uid
    ensures forall k :: k in ids && k != id ==> k in r && r[k] == ids[k]
  {
    ids[id := uid]
  }

  /** Registering the same entry twice is the same as registering it once. */
  lemma RegisterIdempotent(ids: map<string, string>, id: string, uid: string)
    ensures Register(Register(ids, id, uid), id, uid) == Register(ids, id, uid)
  {
  }

  /** The outline for a fetched recording. */
  function OutlineFor(detail: Detail, host: HostValues): (n: Node)
    ensures ReadRecordingNode(n)
         == Some(Recording(host.newBlockUid, host.datePageTitle, host.startTime,
                           detail.link, Formatted(detail.transcripts)))
  {
    var rec := Recording(host.newBlockUid, host.datePageTitle, host.startTime,
                         detail.link, Formatted(detail.transcripts));
    RecordingNodeRoundTrip(rec);
    RecordingNode(rec)
  }

  /** One import. `fetched` is the GET_SPEECH outcome (a throw before the write counts as
      its failure), `stored` the "ids" setting when it
      is read, `created` the outcome of `createBlock` (consulted only with a callback) and
      `persisted` the outcome of `settings.set("ids", ...)`. */
  function ImportSpeech(
    req: ImportRequest,
    fetched: Result<Detail, string>,
    host: HostValues,
    stored: Option<map<string, string>>,
    created: Result<(), string>,
    persisted: Result<(), string>): (out: ImportOutcome)
    // a failed fetch changes nothing
    ensures fetched.Err? ==> out == ImportOutcome(None, None, None, Err(FetchFailed(fetched.error)))
    // a block is written only on the callback path, and only when createBlock succeeds
    ensures out.written.Some? <==> fetched.Ok? && req.hasOnSuccess && created.Ok?
    ensures out.written.Some? ==>
              && out.written.value.parentUid == req.parentUid
              && out.written.value.order == req.order
              && out.written.value.node == OutlineFor(fetched.value, host)
    // the registry holds one new entry exactly when the store is reached and succeeds
    ensures out.storedIds.Some? <==> fetched.Ok? && (!req.hasOnSuccess || created.Ok?) && persisted.Ok?
    ensures out.storedIds.Some? ==>
              out.storedIds.value == Register(StoredRegistry(stored), req.id, host.newBlockUid)
    // with a callback the store is awaited: the import resolves iff the registry was updated,
    // and the callback follows the write and the store
    ensures req.hasOnSuccess ==> (out.storedIds.Some? <==> out.result.Ok?)
    ensures out.notified.Some? <==> (req.hasOnSuccess && out.result.Ok?)
    ensures out.notified.Some? ==> out.notified.value == req.id
    // without a callback the store is not awaited: the node is handed back whatever it does
    ensures !req.hasOnSuccess && fetched.Ok? ==> out.result == Ok([OutlineFor(fetched.value, host)])
    // what the promise resolves to
    ensures out.result.Ok? ==>
              fetched.Ok? &&
              out.result.value == (if req.hasOnSuccess then [] else [OutlineFor(fetched.value, host)])
    ensures fetched.Ok? && req.hasOnSuccess && created.Err? ==>
              out == ImportOutcome(None, None, None, Err(WriteFailed(created.error)))
    ensures fetched.Ok? && req.hasOnSuccess && created.Ok? && persisted.Err? ==>
              out == ImportOutcome(Some(BlockWrite(req.parentUid, OutlineFor(fetched.value, host), req.order)),
                                   None, None, Err(StoreFailed(persisted.error)))
  {
    match fetched
    case Err(e) => ImportOutcome(None, None, None, Err(FetchFailed(e)))
    case Ok(detail) =>
      var node := OutlineFor(detail, host);
      var ids := Register(StoredRegistry(stored), req.id, host.newBlockUid);
      var kept := if persisted.Ok? then Some(ids) else None;
      if req.hasOnSuccess then
        match created
        case Err(e) => ImportOutcome(None, None, None, Err(WriteFailed(e)))
        case Ok(_) =>
          var write := Some(BlockWrite(req.parentUid, node, req.order));
          match persisted
          case Err(e) => ImportOutcome(write, None, None, Err(StoreFailed(e)))
          case Ok(_) => ImportOutcome(write, kept, Some(req.id), Ok([]))
      else
        ImportOutcome(None, kept, None, Ok([node]))
  }

  /** The registry entry a successful import stores names the outline it produced: the
      stored uid is the root uid of the block written, or of the node handed back. */
  lemma RegistryNamesTheOutline(
    req: ImportRequest,
    fetched: Result<Detail, string>,
    host: HostValues,
    stored: Option<map<string, string>>,
    created: Result<(), string>,
    persisted: Result<(), string>)
    ensures var out := ImportSpeech(req, fetched, host, stored, created, persisted);
            out.storedIds.Some? ==>
              var node := if req.hasOnSuccess then out.written.value.node else out.result.value[0];
              && req.id in out.storedIds.value
              && ReadRecordingNode(node).Some?
              && ReadRecordingNode(node).value.uid == out.storedIds.value[req.id]
              && ReadRecordingNode(node).value.transcript == Formatted(fetched.value.transcripts)
  {
  }
}

=== FILE: outline.dfy ===
/** The outline `importSpeech` builds for one recording (`node` in
    src/components/ImportOtterDialog.tsx): a dated root block, a header block, a metadata
    section and a transcript section. */
module Outline {

  import opened Wrappers
  import opened Text

  /** An `InputTextNode`: optional uid, text and ordered children. */
  datatype Node = Node(uid: Option<string>, text: string, children: seq<Node>)

  /** The values the outline is built from. The date page title and the start time come
      from the host (`dateToPageTitle`, `getHours`/`getMinutes`) and are taken as given. */
  datatype Recording = Recording(
    uid: string,
    datePageTitle: string,
    startTime: string,
    link: string,
    transcript: string)

  const HeaderText: string := "[[Automated transcirpt from otter]]"
  const MetadataText: string := "Recroding Metadata"
  const DatePrefix: string := "Date:: "
  const StartPrefix: string := "Start time:: "
  const LinkPrefix: string := "Otter Link:: "
  const TodoText: string := "{{[[TODO]]}} Moved as needed?"
  const TranscriptHeaderText: string := "{{[[TODO]]}} [[Transcricpt]]"

  /** A block with text only. */
  function Leaf(text: string): Node {
    Node(None, text, [])
  }

  /** `[[title]]`: a reference to the daily page. */
  function PageLink(title: string): string {
    "[[" + title + "]]"
  }

  /** The page title inside a `[[...]]` reference. */
  function PageLinkTitle(t: string): (r: Option<string>)
    ensures r.Some? ==> t == PageLink(r.value)
  {
    if 4 <= |t| && t[..2] == "[[" && t[|t| - 2..] == "]]" then
      var title := t[2..|t| - 2];
      assert t == t[..2] + title + t[|t| - 2..];
      Some(title)
    else None
  }

  lemma PageLinkRoundTrip(title: string)
    ensures PageLinkTitle(PageLink(title)) == Some(title)
  {
    var t := PageLink(title);
    assert t[..2] == "[[" && t[|t| - 2..] == "]]" && t[2..|t| - 2] == title;
  }

  /** The four metadata blocks, in order: date, start time, link, to-do. */
  function Metadata(rec: Recording): (r: Node)
    ensures r.text == MetadataText && |r.children| == 4
  {
    Node(None, MetadataText, [
      Leaf(DatePrefix + PageLink(rec.datePageTitle)),
      Leaf(StartPrefix + rec.startTime),
      Leaf(LinkPrefix + rec.link),
      Leaf(TodoText)])
  }

  /** The tree handed to `createBlock` (or returned to the caller). */
  function RecordingNode(rec: Recording): (r: Node)
    ensures r.uid == Some(rec.uid) && r.text == PageLink(rec.datePageTitle)
    ensures |r.children| == 1 && |r.children[0].children| == 2
    ensures r.children[0].children[0].text == MetadataText
    ensures r.children[0].children[1].children == [Leaf(rec.transcript)]
  {
    Node(Some(rec.uid), PageLink(rec.datePageTitle), [
      Node(None, HeaderText, [
        Metadata(rec),
        Node(None, TranscriptHeaderText, [Leaf(rec.transcript)])])])
  }

  /** The text of a block that has no uid and no children. */
  function LeafText(n: Node): Option<string> {
    if n.uid.None? && n.children == [] then Some(n.text) else None
  }

  /** The value after `prefix` in a leaf block. */
  function LeafField(prefix: string, n: Node): Option<string> {
    match LeafText(n)
    case None => None
    case Some(t) => StripPrefix(prefix, t)
  }

  /** Reads the recording back out of an outline, checking every fixed text and the shape. */
  function ReadRecordingNode(n: Node): Option<Recording> {
    if n.uid.None? || |n.children| != 1 then None
    else
      var header := n.children[0];
      if header.uid.Some? || header.text != HeaderText || |header.children| != 2 then None
      else
        var meta := header.children[0];
        var body := header.children[1];
        if meta.uid.Some? || meta.text != MetadataText || |meta.children| != 4
           || body.uid.Some? || body.text != TranscriptHeaderText || |body.children| != 1
        then None
        else
          match (PageLinkTitle(n.text), LeafField(DatePrefix, meta.children[0]),
                 LeafField(StartPrefix, meta.children[1]), LeafField(LinkPrefix, meta.children[2]),
                 LeafText(meta.children[3]), LeafText(body.children[0]))
          case (Some(title), Some(date), Some(start), Some(link), Some(todo), Some(transcript)) =>
            if date == n.text && todo == TodoText
            then Some(Recording(n.uid.value, title, start, link, transcript))
            else None
          case _ => None
  }

  /** The outline carries every value it was built from: reading it back gives the
      recording, including the uid later stored in the registry and the full transcript. */
  lemma RecordingNodeRoundTrip(rec: Recording)
    ensures ReadRecordingNode(RecordingNode(rec)) == Some(rec)
  {
    PageLinkRoundTrip(rec.datePageTitle);
    StripPrefixOfConcat(DatePrefix, PageLink(rec.datePageTitle));
    StripPrefixOfConcat(StartPrefix, rec.startTime);
    StripPrefixOfConcat(LinkPrefix, rec.link);
  }
}

=== FILE: text.dfy ===
/** String helpers standing in for the JavaScript built-ins the plugin uses:
    `Array.prototype.join`, number-to-string conversion, `padStart` and prefix tests. */
module Text {

  import opened Wrappers

  /** `parts.join(sep)`. */
  function Join(parts: seq<string>, sep: string): string
  {
    if |parts| == 0 then ""
    else if |parts| == 1 then parts[0]
    else parts[0] + sep + Join(parts[1..], sep)
  }

  /** Prepending to the first part prepends to the whole join. */
  lemma {:induction false} JoinPrependFirst(p: string, x: string, rest: seq<string>, sep: string)
    ensures Join([p + x] + rest, sep) == p + Join([x] + rest, sep)
  {
    assert ([p + x] + rest)[1..] == rest;
    assert ([x] + rest)[1..] == rest;
  }

  /** Joining two or more parts puts the separator right after the first one. */
  lemma JoinCons(x: string, rest: seq<string>, sep: string)
    requires |rest| > 0
    ensures Join([x] + rest, sep) == x + sep + Join(rest, sep)
  {
    assert ([x] + rest)[1..] == rest;
  }

  /** Appending a part appends the separator and that part. */
  lemma {:induction false} JoinSnoc(parts: seq<string>, x: string, sep: string)
    requires |parts| > 0
    ensures Join(parts + [x], sep) == Join(parts, sep) + sep + x
  {
    if |parts| == 1 {
      assert parts + [x] == [parts[0]] + [x];
    } else {
      assert (parts + [x])[1..] == parts[1..] + [x];
      JoinSnoc(parts[1..], x, sep);
    }
  }

  /** The last part is always a suffix of a non-empty join. */
  lemma {:induction false} JoinEndsWithLast(parts: seq<string>, sep: string)
    requires |parts| > 0
    ensures var j := Join(parts, sep);
            |parts[|parts| - 1]| <= |j| && j[|j| - |parts[|parts| - 1]|..] == parts[|parts| - 1]
  {
    var n := |parts|;
    if n > 1 {
      assert parts == parts[..n - 1] + [parts[n - 1]];
      JoinSnoc(parts[..n - 1], parts[n - 1], sep);
    }
  }

  /** A common prefix cancels from an equation between concatenations. */
  lemma ConcatCancel(a: string, x: string, y: string)
    requires a + x == a + y
    ensures x == y
  {
    assert x == (a + x)[|a|..];
    assert y == (a + y)[|a|..];
  }

  predicate IsDigit(c: char) {
    '0' <= c <= '9'
  }

  predicate AllDigits(s: string) {
    forall i :: 0 <= i < |s| ==> IsDigit(s[i])
  }

  function DigitChar(d: nat): (c: char)
    requires d < 10
    ensures IsDigit(c)
  {
    ('0' as int + d) as char
  }

  function DigitValue(c: char): (d: nat)
    requires IsDigit(c)
    ensures d < 10
  {
    c as int - '0' as int
  }

  /** The decimal value of a digit string; the empty string reads as 0. */
  function ParseDigits(s: string): nat
    requires AllDigits(s)
  {
    if |s| == 0 then 0
    else ParseDigits(s[..|s| - 1]) * 10 + DigitValue(s[|s| - 1])
  }

  /** `${n}` for a non-negative integer: shortest decimal notation. */
  function NatToString(n: nat): (r: string)
    ensures 0 < |r| && AllDigits(r)
    ensures ParseDigits(r) == n
    ensures n < 10 <==> |r| == 1
    ensures n < 100 ==> |r| <= 2
    ensures r[0] == '0' ==> n == 0
  {
    if n < 10 then [DigitChar(n)]
    else
      var prefix := NatToString(n / 10);
      var r := prefix + [DigitChar(n % 10)];
      assert r[..|r| - 1] == prefix;
      r
  }

  /** `s.padStart(width, fill)` for a one-character fill string. */
  function PadStart(s: string, width: nat, fill: char): (r: string)
    ensures |r| == if |s| < width then width else |s|
    ensures r[|r| - |s|..] == s
    ensures forall i :: 0 <= i < |r| - |s| ==> r[i] == fill
  {
    if |s| >= width then s else seq(width - |s|, _ => fill) + s
  }

  /** Leading zeros do not change the value of a digit string. */
  lemma {:induction false} ParseLeadingZeros(z: string, s: string)
    requires forall i :: 0 <= i < |z| ==> z[i] == '0'
    requires AllDigits(s)
    ensures AllDigits(z + s)
    ensures ParseDigits(z + s) == ParseDigits(s)
  {
    if |s| == 0 {
      assert z + s == z;
      if |z| > 0 {
        ParseLeadingZeros(z[..|z| - 1], []);
        assert z[..|z| - 1] + [] == z[..|z| - 1];
      }
    } else {
      assert (z + s)[..|z + s| - 1] == z + s[..|s| - 1];
      ParseLeadingZeros(z, s[..|s| - 1]);
    }
  }

  /** The rest of `s` after `prefix`, if `s` starts with it. */
  function StripPrefix(prefix: string, s: string): (r: Option<string>)
    ensures r.Some? <==> prefix <= s
    ensures r.Some? ==> s == prefix + r.value
  {
    if prefix <= s then Some(s[|prefix|..]) else None
  }

  lemma StripPrefixOfConcat(prefix: string, rest: string)
    ensures StripPrefix(prefix, prefix + rest) == Some(rest)
  {
    assert (prefix + rest)[..|prefix|] == prefix;
    assert (prefix + rest)[|prefix|..] == rest;
  }
}

=== FILE: timestamp.dfy ===
/** `offsetToTimestamp` in src/components/ImportOtterDialog.tsx: a transcript offset,
    counted in audio samples at 16000 per second, rendered as `M:SS`. */
module Timestamp {

  import opened Wrappers
  import opened Text

  /** `r` is what `Math.round(samples / 16000)` yields: the integer nearest the quotient,
      halves rounded up. */
  predicate IsRoundedSeconds(samples: int, r: int) {
    r * 16000 - 8000 <= samples < r * 16000 + 8000
  }

  /** `Math.round(offset / 16000)` for a non-negative integer offset. */
  function RoundedSeconds(samples: nat): (r: nat)
    ensures IsRoundedSeconds(samples, r)
  {
    (samples + 8000) / 16000
  }

  /** An absent offset and a zero offset are both falsy in the source. */
  function SamplesOf(offset: Option<nat>): nat {
    offset.GetOr(0)
  }

  /** Splits whole seconds into minutes (`Math.floor(total / 60)`) and the remaining
      seconds (`total % 60`). */
  function MinutesAndSeconds(total: nat): (r: (nat, nat))
    ensures r.1 < 60 && r.0 * 60 + r.1 == total
  {
    (total / 60, total % 60)
  }

  /** `${minutes}:${`${seconds}`.padStart(2, "0")}`. */
  function Render(minutes: nat, seconds: nat): (r: string)
    requires seconds < 60
    ensures IsTimestampShaped(r)
    ensures r[..|r| - 3] == NatToString(minutes)
    ensures r[|r| - 2..] == PadStart(NatToString(seconds), 2, '0')
  {
    var m := NatToString(minutes);
    var d := NatToString(seconds);
    var s := PadStart(d, 2, '0');
    assert AllDigits(s) by {
      forall i | 0 <= i < |s|
        ensures IsDigit(s[i])
      {
        if i >= |s| - |d| {
          assert s[i] == s[|s| - |d|..][i - (|s| - |d|)];
        }
      }
    }
    var r := m + ":" + s;
    assert r[..|r| - 3] == m;
    assert r[|r| - 2..] == s;
    r
  }

  /** The shape `digits ":" digit digit`. */
  predicate IsTimestampShaped(t: string) {
    4 <= |t| && t[|t| - 3] == ':' && AllDigits(t[..|t| - 3]) && AllDigits(t[|t| - 2..])
  }

  /** The literal returned for a falsy offset. */
  function Zero(): (r: string)
    ensures IsTimestampShaped(r)
    ensures r[..|r| - 3] == "00" && r[|r| - 2..] == "00"
  {
    "00:00"
  }

  /** The timestamp text: whole minutes (unpadded), a colon, two-digit seconds. */
  function OffsetToTimestamp(offset: Option<nat>): (r: string)
    ensures IsTimestampShaped(r)
  {
    var samples := SamplesOf(offset);
    if samples == 0 then Zero()
    else
      var ms := MinutesAndSeconds(RoundedSeconds(samples));
      Render(ms.0, ms.1)
  }

  /** Reads an `M:SS` timestamp back into (minutes, seconds). */
  function ParseTimestamp(t: string): Option<(nat, nat)>
  {
    if IsTimestampShaped(t) then
      Some((ParseDigits(t[..|t| - 3]), ParseDigits(t[|t| - 2..])))
    else None
  }

  /** A rendered `M:SS` reads back as the minutes and seconds it was made from. */
  lemma RenderRoundTrip(minutes: nat, seconds: nat)
    requires seconds < 60
    ensures ParseTimestamp(Render(minutes, seconds)) == Some((minutes, seconds))
  {
    var t := Render(minutes, seconds);
    var digits := NatToString(seconds);
    var padded := PadStart(digits, 2, '0');
    var z := padded[..|padded| - |digits|];
    assert padded == z + digits;
    ParseLeadingZeros(z, digits);
  }

  /** Every timestamp reads back as minutes and seconds, the seconds below 60,
      that together are the offset rounded to whole seconds. */
  lemma TimestampRoundTrip(offset: Option<nat>)
    ensures var p := ParseTimestamp(OffsetToTimestamp(offset));
            && p.Some?
            && p.value.1 < 60
            && IsRoundedSeconds(SamplesOf(offset), p.value.0 * 60 + p.value.1)
  {
    var samples := SamplesOf(offset);
    if samples == 0 {
      ParseLeadingZeros("0", "0");
      assert "0" + "0" == "00";
    } else {
      var ms := MinutesAndSeconds(RoundedSeconds(samples));
      RenderRoundTrip(ms.0, ms.1);
    }
  }

  /** The zero case keeps a two-digit minutes field while every other offset that rounds
      to zero seconds prints a single `0`: the two spellings of the same time differ. */
  lemma ZeroOffsetSpellings()
    ensures OffsetToTimestamp(None) == "00:00"
    ensures OffsetToTimestamp(Some(0)) == "00:00"
    ensures OffsetToTimestamp(Some(1)) == "0:00"
  {
    assert NatToString(0) == "0";
    assert PadStart("0", 2, '0') == "00";
  }
}

=== FILE: transcript.dfy ===
/** `buildTranscript` in src/components/ImportOtterDialog.tsx: the transcript lines of a
    recording become one block of text, with a bold speaker label wherever the speaker changes. */
module Transcript {

  import opened Text

  /** One entry of `transcripts` in a GET_SPEECH response. */
  datatype Line = Line(start: int, end: int, text: string, speaker: string)

  /** What `listOfLines.join` puts between two lines. */
  const Separator: string := "\n\n"

  /** The label written before a line that opens a new speaker turn. */
  function SpeakerLabel(speaker: string): string {
    "**" + speaker + "**" + ":\n"
  }

  /** Line `i` carries a label: it is the first line, or its speaker differs from the
      previous line's (exact string comparison). */
  predicate StartsRun(lines: seq<Line>, i: nat)
    requires i < |lines|
  {
    i == 0 || lines[i].speaker != lines[i - 1].speaker
  }

  /** The string pushed for line `i`. */
  function Segment(lines: seq<Line>, i: nat): (r: string)
    requires i < |lines|
  {
    (if StartsRun(lines, i) then SpeakerLabel(lines[i].speaker) else "") + lines[i].text
  }

  /** A segment always ends with its line's text, and something precedes the text exactly
      when the line opens a speaker turn: then it is the speaker's label. */
  lemma SegmentKeepsText(lines: seq<Line>, i: nat)
    requires i < |lines|
    ensures var r := Segment(lines, i);
            && |lines[i].text| <= |r| && r[|r| - |lines[i].text|..] == lines[i].text
            && (StartsRun(lines, i) <==> |r| > |lines[i].text|)
            && (StartsRun(lines, i) ==> r == SpeakerLabel(lines[i].speaker) + lines[i].text)
  {
  }

  function Segments(lines: seq<Line>): seq<string> {
    seq(|lines|, i requires 0 <= i < |lines| => Segment(lines, i))
  }

  /** The formatted transcript: one segment per line, joined by a blank line. */
  function Formatted(lines: seq<Line>): (r: string)
    ensures |lines| == 0 ==> r == ""
    ensures |lines| > 0 ==> SpeakerLabel(lines[0].speaker) <= r
    ensures |lines| > 0 ==> var last := lines[|lines| - 1].text;
                            |last| <= |r| && r[|r| - |last|..] == last
  {
    JoinedSegmentsEnds(lines);
    Join(Segments(lines), Separator)
  }

  /** The joined segments open with the first speaker's label and close with the last text. */
  lemma JoinedSegmentsEnds(lines: seq<Line>)
    ensures var j := Join(Segments(lines), Separator);
            && (|lines| == 0 ==> j == "")
            && (|lines| > 0 ==> SpeakerLabel(lines[0].speaker) <= j)
            && (|lines| > 0 ==> var last := lines[|lines| - 1].text;
                                |last| <= |j| && j[|j| - |last|..] == last)
  {
    var segs := Segments(lines);
    if |lines| > 0 {
      JoinEndsWithLast(segs, Separator);
      if |lines| > 1 {
        assert segs == [SpeakerLabel(lines[0].speaker) + lines[0].text] + segs[1..];
        JoinPrependFirst(SpeakerLabel(lines[0].speaker), lines[0].text, segs[1..], Separator);
      }
    }
  }

  /** The loop of the source: walks the lines in order, labels a line when it opens a
      speaker turn, collects the strings and joins them. */
  method BuildTranscript(lines: seq<Line>) returns (r: string)
    ensures r == Join(Segments(lines), Separator)
    ensures r == Join(RenderRuns(Runs(lines)), Separator)
    ensures |lines| == 0 ==> r == ""
    ensures |lines| > 0 ==> SpeakerLabel(lines[0].speaker) <= r
    ensures |lines| > 0 ==> var last := lines[|lines| - 1].text;
                            |last| <= |r| && r[|r| - |last|..] == last
  {
    var listOfLines: seq<string> := [];
    var index := 0;
    while index < |lines|
      invariant 0 <= index <= |lines|
      invariant listOfLines == Segments(lines)[..index]
    {
      var line := lines[index];
      var stringLine := "";
      if index == 0 {
        stringLine := stringLine + "**" + line.speaker + "**";
        stringLine := stringLine + ":\n";
      } else if line.speaker != lines[index - 1].speaker {
        stringLine := stringLine + "**" + line.speaker + "**";
        stringLine := stringLine + ":\n";
      }
      stringLine := stringLine + line.text;
      assert stringLine == Segment(lines, index);
      assert Segments(lines)[..index + 1] == Segments(lines)[..index] + [Segment(lines, index)];
      listOfLines := listOfLines + [stringLine];
      index := index + 1;
    }
    assert listOfLines == Segments(lines);
    r := Join(listOfLines, Separator);
    TranscriptGroupsBySpeaker(lines);
    JoinedSegmentsEnds(lines);
  }

  /** A maximal block of consecutive lines by one speaker. */
  datatype Run = Run(speaker: string, texts: seq<string>)

  /** The (speaker, text) pairs of the lines, in order. */
  function Pairs(lines: seq<Line>): seq<(string, string)> {
    seq(|lines|, i requires 0 <= i < |lines| => (lines[i].speaker, lines[i].text))
  }

  function Texts(lines: seq<Line>): seq<string> {
    seq(|lines|, i requires 0 <= i < |lines| => lines[i].text)
  }

  function Tagged(speaker: string, texts: seq<string>): seq<(string, string)> {
    seq(|texts|, j requires 0 <= j < |texts| => (speaker, texts[j]))
  }

  /** Expands runs back into (speaker, text) pairs. */
  function Ungroup(rs: seq<Run>): seq<(string, string)> {
    if |rs| == 0 then [] else Tagged(rs[0].speaker, rs[0].texts) + Ungroup(rs[1..])
  }

  /** The number of adjacent line pairs whose speakers differ. */
  function SpeakerChanges(lines: seq<Line>): nat {
    if |lines| < 2 then 0
    else (if lines[0].speaker != lines[1].speaker then 1 else 0) + SpeakerChanges(lines[1..])
  }

  /** Groups the lines into speaker runs: ungrouping gives the lines back, no run is
      empty, neighbouring runs have different speakers, and there is one run more than
      there are speaker changes. */
  function Runs(lines: seq<Line>): (rs: seq<Run>)
    ensures Ungroup(rs) == Pairs(lines)
    ensures forall k :: 0 <= k < |rs| ==> |rs[k].texts| > 0
    ensures forall k :: 0 <= k < |rs| - 1 ==> rs[k].speaker != rs[k + 1].speaker
    ensures |lines| == 0 ==> rs == []
    ensures |lines| > 0 ==> |rs| == 1 + SpeakerChanges(lines) && rs[0].speaker == lines[0].speaker
  {
    if |lines| == 0 then []
    else
      var head := lines[0];
      var rest := Runs(lines[1..]);
      assert Pairs(lines) == [(head.speaker, head.text)] + Pairs(lines[1..]);
      if |rest| > 0 && rest[0].speaker == head.speaker then
        var merged := Run(head.speaker, [head.text] + rest[0].texts);
        var rs := [merged] + rest[1..];
        assert rs[1..] == rest[1..];
        assert Tagged(head.speaker, merged.texts)
            == [(head.speaker, head.text)] + Tagged(head.speaker, rest[0].texts);
        rs
      else
        var rs := [Run(head.speaker, [head.text])] + rest;
        assert rs[1..] == rest;
        rs
  }

  /** How a run is shown: its speaker's label, then its texts joined by blank lines. */
  function RenderRun(r: Run): string {
    SpeakerLabel(r.speaker) + Join(r.texts, Separator)
  }

  function RenderRuns(rs: seq<Run>): seq<string> {
    seq(|rs|, k requires 0 <= k < |rs| => RenderRun(rs[k]))
  }

  /** How the segments of a list relate to those of its tail: only the tail's first
      segment can lose its label. */
  lemma {:induction false} SegmentsOfCons(lines: seq<Line>)
    requires |lines| >= 2
    ensures var tailSegs := Segments(lines[1..]);
            && tailSegs == [SpeakerLabel(lines[1].speaker) + lines[1].text] + tailSegs[1..]
            && Segments(lines)
               == [SpeakerLabel(lines[0].speaker) + lines[0].text]
                  + (if lines[1].speaker != lines[0].speaker then tailSegs
                     else [lines[1].text] + tailSegs[1..])
  {
    var segs := Segments(lines);
    var tailSegs := Segments(lines[1..]);
    assert forall k :: 1 <= k < |tailSegs| ==> segs[k + 1] == tailSegs[k];
    assert tailSegs == [tailSegs[0]] + tailSegs[1..];
    assert segs[0] == SpeakerLabel(lines[0].speaker) + lines[0].text;
    if lines[1].speaker != lines[0].speaker {
      assert segs == [segs[0]] + tailSegs;
    } else {
      assert segs[1] == lines[1].text;
      assert segs == [segs[0]] + ([segs[1]] + tailSegs[1..]);
    }
  }

  /** The step of the grouping proof when the second line opens a new run. */
  lemma {:induction false} GroupsAtNewSpeaker(lines: seq<Line>)
    requires |lines| >= 2 && lines[1].speaker != lines[0].speaker
    requires Formatted(lines[1..]) == Join(RenderRuns(Runs(lines[1..])), Separator)
    ensures Formatted(lines) == Join(RenderRuns(Runs(lines)), Separator)
  {
    var s := lines[0].speaker;
    var t := lines[0].text;
    var rest := Runs(lines[1..]);
    SegmentsOfCons(lines);
    JoinCons(SpeakerLabel(s) + t, Segments(lines[1..]), Separator);
    assert Runs(lines) == [Run(s, [t])] + rest;
    assert RenderRuns(Runs(lines)) == [SpeakerLabel(s) + t] + RenderRuns(rest);
    JoinCons(SpeakerLabel(s) + t, RenderRuns(rest), Separator);
  }

  lemma RenderRunsCons(r: Run, rs: seq<Run>)
    ensures RenderRuns([r] + rs) == [RenderRun(r)] + RenderRuns(rs)
  {
  }

  /** Rendering a run whose first text is `t`, followed by other runs. */
  lemma {:induction false} RenderRunsOfMerged(s: string, t: string, ts: seq<string>, rs: seq<Run>)
    requires |ts| > 0
    ensures Join(RenderRuns([Run(s, [t] + ts)] + rs), Separator)
         == SpeakerLabel(s) + t + Separator + Join([Join(ts, Separator)] + RenderRuns(rs), Separator)
  {
    RenderRunsCons(Run(s, [t] + ts), rs);
    JoinCons(t, ts, Separator);
    assert RenderRun(Run(s, [t] + ts)) == SpeakerLabel(s) + t + Separator + Join(ts, Separator);
    JoinPrependFirst(SpeakerLabel(s) + t + Separator, Join(ts, Separator), RenderRuns(rs), Separator);
  }

  /** The step of the grouping proof when the second line continues the first one's run. */
  lemma {:induction false} GroupsAtSameSpeaker(lines: seq<Line>)
    requires |lines| >= 2 && lines[1].speaker == lines[0].speaker
    requires Formatted(lines[1..]) == Join(RenderRuns(Runs(lines[1..])), Separator)
    ensures Formatted(lines) == Join(RenderRuns(Runs(lines)), Separator)
  {
    var s := lines[0].speaker;
    var t := lines[0].text;
    var lbl := SpeakerLabel(s);
    var tailSegs := Segments(lines[1..]);
    var rest := Runs(lines[1..]);
    var ts := rest[0].texts;
    var more := RenderRuns(rest[1..]);
    // the segments side
    SegmentsOfCons(lines);
    JoinCons(lbl + t, [lines[1].text] + tailSegs[1..], Separator);
    // the induction hypothesis, without the tail's leading label
    assert rest == [rest[0]] + rest[1..];
    RenderRunsCons(rest[0], rest[1..]);
    JoinPrependFirst(lbl, lines[1].text, tailSegs[1..], Separator);
    JoinPrependFirst(lbl, Join(ts, Separator), more, Separator);
    ConcatCancel(lbl, Join([lines[1].text] + tailSegs[1..], Separator), Join([Join(ts, Separator)] + more, Separator));
    // the runs side
    assert Runs(lines) == [Run(s, [t] + ts)] + rest[1..];
    RenderRunsOfMerged(s, t, ts, rest[1..]);
  }

  /** The per-line loop produces exactly the speaker-grouped rendering: each run of
      consecutive lines by one speaker appears once, under one label. */
  lemma {:induction false} TranscriptGroupsBySpeaker(lines: seq<Line>)
    ensures Formatted(lines) == Join(RenderRuns(Runs(lines)), Separator)
  {
    if |lines| == 1 {
      assert Segments(lines) == [SpeakerLabel(lines[0].speaker) + lines[0].text];
      assert Runs(lines) == [Run(lines[0].speaker, [lines[0].text])];
    } else if |lines| >= 2 {
      TranscriptGroupsBySpeaker(lines[1..]);
      if lines[1].speaker != lines[0].speaker {
        GroupsAtNewSpeaker(lines);
      } else {
        GroupsAtSameSpeaker(lines);
      }
    }
  }

  /** How many of the first `n` lines carry a label. */
  function CountLabels(lines: seq<Line>, n: nat): nat
    requires n <= |lines|
  {
    if n == 0 then 0 else CountLabels(lines, n - 1) + (if StartsRun(lines, n - 1) then 1 else 0)
  }

  /** How many labels the formatted transcript contains. */
  function LabelCount(lines: seq<Line>): nat {
    CountLabels(lines, |lines|)
  }

  lemma {:induction false} CountLabelsOfTail(lines: seq<Line>, n: nat)
    requires 2 <= n <= |lines|
    ensures CountLabels(lines, n)
         == CountLabels(lines[1..], n - 1) + (if lines[1].speaker != lines[0].speaker then 1 else 0)
  {
    assert CountLabels(lines, 1) == 1 && CountLabels(lines[1..], 1) == 1;
    if n > 2 {
      CountLabelsOfTail(lines, n - 1);
      assert StartsRun(lines, n - 1) == StartsRun(lines[1..], n - 2);
    }
  }

  /** A non-empty transcript has one label more than it has speaker changes, which is
      one label per speaker run. */
  lemma {:induction false} LabelCountIsOneMoreThanChanges(lines: seq<Line>)
    requires |lines| > 0
    ensures LabelCount(lines) == 1 + SpeakerChanges(lines)
    ensures LabelCount(lines) == |Runs(lines)|
  {
    assert CountLabels(lines, 1) == 1;
    if |lines| >= 2 {
      LabelCountIsOneMoreThanChanges(lines[1..]);
      CountLabelsOfTail(lines, |lines|);
    }
  }

  lemma {:induction false} NoChangesUnderOneSpeaker(lines: seq<Line>)
    requires forall i :: 0 <= i < |lines| ==> lines[i].speaker == lines[0].speaker
    ensures SpeakerChanges(lines) == 0
  {
    if |lines| >= 2 {
      var tail := lines[1..];
      assert forall i :: 0 <= i < |tail| ==> tail[i].speaker == lines[i + 1].speaker;
      NoChangesUnderOneSpeaker(tail);
    }
  }

  /** With a single speaker there is exactly one label, in front of all the text. */
  lemma OneSpeakerOneLabel(lines: seq<Line>)
    requires |lines| > 0
    requires forall i :: 0 <= i < |lines| ==> lines[i].speaker == lines[0].speaker
    ensures LabelCount(lines) == 1
    ensures Formatted(lines) == SpeakerLabel(lines[0].speaker) + Join(Texts(lines), Separator)
  {
    NoChangesUnderOneSpeaker(lines);
    LabelCountIsOneMoreThanChanges(lines);
    var rs := Runs(lines);
    assert Ungroup(rs) == Tagged(rs[0].speaker, rs[0].texts) + Ungroup(rs[1..]);
    assert rs[1..] == [];
    assert Tagged(rs[0].speaker, rs[0].texts) == Pairs(lines);
    assert forall j :: 0 <= j < |lines| ==> rs[0].texts[j] == Pairs(lines)[j].1;
    assert rs[0].texts == Texts(lines);
    TranscriptGroupsBySpeaker(lines);
    assert RenderRuns(rs) == [RenderRun(rs[0])];
  }

  /** Labels are not merged across non-adjacent turns: A, B, A carries three labels. */
  lemma ReturningSpeakerIsLabelledAgain(a: Line, b: Line, c: Line)
    requires a.speaker != b.speaker && c.speaker == a.speaker
    ensures LabelCount([a, b, c]) == 3
    ensures |Runs([a, b, c])| == 3
  {
    LabelCountIsOneMoreThanChanges([a, b, c]);
    assert [a, b, c][1..] == [b, c];
    assert [b, c][1..] == [c];
  }

  /** A worked example: two lines by A, then one by B. */
  lemma FormatsTwoSpeakers()
    ensures Formatted([Line(0, 1, "hi", "A"), Line(1, 2, "there", "A"), Line(2, 3, "hello", "B")])
         == "**A**:\nhi\n\nthere\n\n**B**:\nhello"
  {
    var lines := [Line(0, 1, "hi", "A"), Line(1, 2, "there", "A"), Line(2, 3, "hello", "B")];
    assert Segment(lines, 0) == "**A**:\nhi";
    assert Segment(lines, 1) == "there";
    assert Segment(lines, 2) == "**B**:\nhello";
    assert Segments(lines) == ["**A**:\nhi", "there", "**B**:\nhello"];
    assert Segments(lines)[1..][1..] == ["**B**:\nhello"];
  }
}

=== FILE: wrappers.dfy ===
/** Failure-carrying values shared by the other modules. */
module Wrappers {

  /** An optional value: a JavaScript property that may be `undefined`. */
  datatype Option<+T> = None | Some(value: T) {

    /** The wrapped value, or `default` when there is none (`x || default`). */
    function GetOr(default: T): T {
      match this
      case Some(v) => v
      case None => default
    }
  }

  /** The settled state of a promise: resolved with a value or rejected with an error. */
  datatype Result<+T, +E> = Ok(value: T) | Err(error: E)
}
